=== FILE: README.md ===
# Workflow builder model

A Dafny model of the workflow builder in `builder.py` (`WorkflowBuild`). The builder reads a
workflow configuration whose `stages` object maps the index strings `"0"`, `"1"`, ... to stage
records (`executable`, `folder`, `input`, `linked_input`). It then assembles a DNAnexus
workflow in two passes:

1. **Add stages.** For every index `0 .. N-1` in order, it reads the workflow's current edit
   version and appends a stage running the stage's applet in the stage's folder. It records the
   stage id the platform returns as the stage's `dxid`.
2. **Bind inputs.** For every index in order, it resolves the stage's inputs:
   - standard inputs are copied by name;
   - a linked input given as an object `{field, stage}` becomes the link descriptor
     `{'$dnanexus_link': {'stage': <dxid of that stage>, <field>: <input name>}}`;
   - a linked input given as a list becomes a list of such descriptors, in order;
   - a linked input of any other shape is dropped.

   The builder then reads the edit version again and updates the stage with the resolved map.

Finally the workflow is closed.

Modules:

- `Results` holds `Option` and `Result`.
- `Json` holds JSON values.
- `Numerals` renders an index as a decimal string (Python's `str`).
- `Stages` holds the stage table and its index keys.
- `RemoteWorkflow` models the remote workflow as an immutable value. It has an edit version, an
  append-only stage list and a closed flag. Every mutation names the version it expects.
- `Resolver` models `set_stage_inputs`' input resolution as a total function returning `Result`.
- `Builder` models `add_stage_executable`, the update half of `set_stage_inputs` and the two
  loops of `__init__`. It also records every mutating call with the version it carried.
- `WorkflowBuild` runs the two loops and the final close as one build.

Four behaviours of the builder shape the model:

- The builder performs no backward-reference check. A stage may link to a later stage or to itself,
  and the build succeeds as long as the key exists (`Builder.ForwardAndSelfLinksBuild`).
- The builder does not memoise applets. Every stage builds its applet, and the id stored last for a name
  wins. The model computes the resulting name-to-id map from the build step (`Builder.AppletIds`).
- The builder silently ignores a linked input of an unknown shape and does not report it.
- A standard input whose value is the string `'$dnanexus_link'` makes the builder crash. It is
  not resolved into a link.

## Model

| member | source | states |
|---|---|---|
| Numerals.DecimalInjective | builder.py:111-118 | `str(i)` and `str(j)` are equal only when `i == j`, so the keys the loops visit never collide |
| Stages.WellIndexedKeys | builder.py:111-113 | if every key `"0" .. "N-1"` with N = `len(self.stages)` is present, the table holds exactly those keys |
| RemoteWorkflow.AddStage | builder.py:168-171 | adding a stage is accepted exactly when the workflow is open and the caller's edit version is current; it appends one stage with a non-empty id and no inputs, and advances the version by one |
| RemoteWorkflow.UpdateStage | builder.py:216-219 | updating is accepted exactly when the workflow is open, the version is current and the stage exists; only that stage's inputs change, and the version advances by one |
| RemoteWorkflow.Close | builder.py:120 | closing keeps the stages and makes every later add or update fail |
| Resolver.Descriptor | builder.py:197-201 | a link descriptor is `{'$dnanexus_link': {'stage': dxid, field: name}}`; a field named `stage` overwrites the id, as the dict literal does |
| Resolver.ResolveLink | builder.py:193-201 | an object link resolves exactly when it has a string `field` and a `stage` naming a table key that has a `dxid`; the result is the descriptor for that stage's id, with the field as key and the input name as value |
| Resolver.ResolveLinkList | builder.py:202-213 | a list of links resolves exactly when every element does; the result has the same length and element k is the descriptor of entry k; on failure the error is that of the first failing element |
| Resolver.ResolveLinkedEntry | builder.py:190-213 | an object yields one descriptor, a list yields a list of descriptors, and any other shape yields nothing and cannot fail |
| Resolver.ResolveLinkedInputs | builder.py:190-213 | the linked inputs resolve exactly when every entry does; the result holds exactly the object- or list-valued names, each mapped to its entry's resolution; on failure every failing name is reported |
| Resolver.ResolveStageInputs | builder.py:174-213 | succeeds exactly when the stage exists, has a non-empty `dxid`, has no standard value equal to `'$dnanexus_link'`, and has only well-formed links to stages with ids. The result's keys are the standard names plus the object- or list-valued linked names. Standard values pass through unchanged, and linked descriptors win on shared names. The error tells the cause, checked in the builder's order. `NoSuchStage` means the key is absent. `NoDxid` or `EmptyDxid` means the stage's own `dxid` is missing or empty. `SentinelInputs` and `BadLinks` arise only once the stage has a non-empty `dxid`, and each reports the offending names |
| Builder.AppletIdsBuildable | builder.py:83-94 | the applet map built for every stage's executable leaves only the indexing and the inputs to decide whether the configuration builds: it is buildable exactly when keys `"0" .. "N-1"` are present and every stage's inputs are resolvable |
| Builder.AddStageExecutable | builder.py:160-172 | succeeds exactly when the stage exists, its executable has an applet id and the workflow is open; it appends one stage with that applet and folder, records the new id as the stage's `dxid`, and logs the call with the version just read; it is never refused for a stale version |
| Builder.SetStageInputs | builder.py:174-219 | binds stage i's resolved inputs on workflow stage i, with the version just read; it fails exactly when resolution fails, the stage is absent or the workflow is closed, and never for a stale version |
| Builder.AttachStages | builder.py:111-113 | the first pass succeeds exactly when keys `"0" .. "N-1"` are present and every executable has an applet id; stage i of the workflow is then the stage added for key `str(i)` and carries its recorded id; every call is an add carrying version `v0 + k` |
| Builder.BindStages | builder.py:116-118 | the second pass succeeds exactly when every stage's inputs resolve; stage i's bound inputs are then the resolution of key `str(i)`, other stage fields are untouched, and call k of the pass is the update of stage k carrying the current version. A pass that fails has bound exactly the stages before the first stage that does not resolve, and it reports that stage with its resolution error |
| Builder.PassOneEnablesPassTwo | builder.py:111-118 | after the first pass every table key has a non-empty id, so a stage's inputs resolve exactly when its links are well formed and name any key of the table, earlier, later or itself |
| WorkflowBuild.BuildWorkflow | builder.py:111-120 | the workflow is closed exactly when the configuration is buildable. A closed build has N stages in index order, each bound to its resolved inputs, at version `v0 + 2N`. A failed build leaves the workflow open. No call is refused for a stale version. Every call carries the version current at that moment, no stage is added after an input is bound, and closing comes last. Every update comes after all N adds. A build that fails on an unknown executable names the executable of some stage, and that executable has no applet id. A build that fails on a missing stage key has a table that is not indexed "0" .. "N-1". A build that fails on unresolved inputs has already added all N stages, and it names a table stage whose inputs are not resolvable. No failed build logs a close |
| WorkflowBuild.BindAndClose | builder.py:116-120 | once the first pass has added every stage, the workflow is closed exactly when every stage's inputs are resolvable against the table's keys; a closed build is the one `Built` describes, a failed one names a table stage whose inputs are not resolvable, leaves the workflow open and logs no close; the first N calls are the adds, and every update comes after them |
| WorkflowBuild.BuildFromConfig | builder.py:83-120 | with the applet ids built first for every stage's executable, the applet lookup never fails and no call is refused; the workflow is closed exactly when keys `"0" .. "N-1"` are present and every stage's inputs are resolvable, and then it is the workflow `Built` describes |
| WorkflowBuild.Seal | builder.py:120 | closing after both passes have run to the end yields the workflow `Built` describes, and the close is the last call, after every add and every update |
| Builder.ForwardAndSelfLinksBuild | builder.py:193-213 | a configuration in which stage `"0"` links to the later stage `"1"` and to itself is buildable |

## Left out

- `AppletBuild`: the applet build shells out to `dx build`, reads `dxapp.json` and creates remote folders. The model takes the build step as a function from executable name to id (`Builder.AppletIds`, used by `WorkflowBuild.BuildFromConfig`). The dry-run case, where the id stays `None`, is not modelled.
- `create_workflow_object`: as written, the call at builder.py:103-107 passes `self.dx_folder` as the third positional argument, which binds the `details` parameter of the signature at builder.py:126, and then passes `details=` as well, so Python raises `TypeError`. The method also keeps the new workflow only in a local variable (builder.py:135-141), reads `self.object` while it is still `None` (builder.py:142) and returns nothing. So line 103 would set `self.object` to `None`, and the `describe()` calls at builder.py:162 and builder.py:215 would fail even without the `TypeError`. The model starts from a freshly created, open, empty workflow at a given edit version.
- `update_stage_executable`: unused by the builder.
- `config_logger`, `_make_new_dir`, `parse_args`, `main` and the reading of the JSON configuration files are logging, filesystem and command-line plumbing. So are the log calls and `print value`.
- The `dxpy.dxlink` branch (builder.py:185-187) is unreachable. Indexing the string `'$dnanexus_link'` by `'project'` raises first, and the model reports that as `SentinelInputs`.
- Stage records are typed. A configuration missing `input`, `linked_input`, `executable` or `folder` raises `KeyError` in the builder, and that case is left to the loader.
- JSON numbers are integers. Floating-point values are not modelled.
- Resolver.ResolveLink: a `field` that is not a string is reported as `FieldNotString`. The builder would use any hashable value (a number, a boolean, `None`) as a dict key, and the JSON encoder would turn it into a string.
- Resolver.ResolveStageInputs: the builder raises at the first failing entry, in dictionary iteration order. The model reports every offending name of the failing phase, and the phases run in the builder's order: the stage's own `dxid`, then standard inputs, then linked inputs.
- Stage ids: the model's remote names the stage appended at position k `stage-k`. Only the fact that ids are non-empty matters to the model.
- The platform's reading of the stage key: `update_stage(stage="i")` is resolved by the platform library to the stage at position i. The model passes the position directly.
- Other writers, version conflicts they would cause, retries and network failures: the builder has no handling for them. The remote is a sequential value with a single writer.

=== FILE: build.dfy ===
/**
 * The whole build as `WorkflowBuild.__init__` runs it: add every stage, bind
 * every stage's inputs, close the workflow.
 */
module WorkflowBuild {
  import opened Results
  import opened Stages
  import opened RemoteWorkflow
  import opened Resolver
  import opened Builder

  /**
   * Builds the workflow: first pass, second pass, close. The build closes
   * the workflow exactly when the configuration is buildable; a failed build
   * leaves the workflow open, and no call is ever refused for a stale version.
   */
  method BuildWorkflow(table: StageTable, applets: map<string, string>, v0: nat) returns (run: Run)
    ensures run.Sealed? <==> Buildable(table, applets)
    ensures run.Sealed? ==> Built(run.session, table, applets, v0)
    ensures run.Failed? ==> !run.session.workflow.closed && !run.error.Rejected?
    ensures CallsInOrder(run.session.calls, v0)
    ensures run.Failed? && run.error.StageMissing? ==> !WellIndexed(table)
    ensures run.Failed? && run.error.UnknownExecutable? ==>
      run.error.name !in applets && exists k :: k in table && table[k].executable == run.error.name
    ensures run.Failed? && run.error.Unresolved? ==> |table| <= |run.session.calls|
    ensures run.Failed? && run.error.Unresolved? ==> forall j :: 0 <= j < |table| ==> run.session.calls[j].AddStageCall?
    ensures run.Failed? && run.error.Unresolved? ==> run.error.key in table && !InputsResolvable(table[run.error.key], table.Keys)
    ensures run.Failed? ==> forall k :: 0 <= k < |run.session.calls| ==> !run.session.calls[k].CloseCall?
    ensures forall k :: 0 <= k < |run.session.calls| && run.session.calls[k].UpdateStageCall? ==>
      |table| <= k && forall j :: 0 <= j < |table| ==> run.session.calls[j].AddStageCall?
  {
    var s1, failure := AttachStages(table, applets, v0);
    if failure.Some? {
      PassCallsInOrder(s1.calls, s1.calls, v0);
      return Failed(s1, failure.value);
    }
    run := BindAndClose(s1, table, applets, v0);
  }

  /**
   * The build as `__init__` runs it from the configuration: the build step
   * gives every stage's executable an id first, so the lookup of a stage's
   * applet id never fails, and the workflow closes exactly when the stages
   * are indexed "0" .. "N-1" and every stage's inputs are resolvable.
   */
  method BuildFromConfig(table: StageTable, build: string -> string, v0: nat) returns (run: Run)
    ensures run.Sealed? <==> WellIndexed(table) && forall k :: k in table ==> InputsResolvable(table[k], table.Keys)
    ensures run.Sealed? ==> Built(run.session, table, AppletIds(table, build), v0)
    ensures run.Failed? ==> !run.error.UnknownExecutable? && !run.error.Rejected?
  {
    var applets := AppletIds(table, build);
    AppletIdsBuildable(table, build);
    run := BuildWorkflow(table, applets, v0);
  }

  /** The rest of the build once the first pass has added every stage: second pass, then close. */
  method BindAndClose(s1: Session, table: StageTable, applets: map<string, string>, v0: nat) returns (run: Run)
    requires AttachedUpTo(s1, table, applets, v0, |table|)
    ensures run.Sealed? <==> forall k :: k in table ==> InputsResolvable(table[k], table.Keys)
    ensures run.Sealed? ==> Built(run.session, table, applets, v0)
    ensures run.Failed? ==> !run.session.workflow.closed && run.error.Unresolved?
    ensures |table| <= |run.session.calls|
    ensures forall j :: 0 <= j < |table| ==> run.session.calls[j].AddStageCall?
    ensures run.Failed? ==> forall k :: 0 <= k < |run.session.calls| ==> !run.session.calls[k].CloseCall?
    ensures run.Failed? ==> run.error.key in table && !InputsResolvable(table[run.error.key], table.Keys)
    ensures CallsInOrder(run.session.calls, v0)
    ensures forall k :: 0 <= k < |run.session.calls| && run.session.calls[k].UpdateStageCall? ==>
      |table| <= k && forall j :: 0 <= j < |table| ==> run.session.calls[j].AddStageCall?
  {
    var s2, failure, bound := BindStages(s1);
    PassCallsInOrder(s1.calls, s2.calls, v0);
    if failure.Some? {
      SecondPassStopped(s1, s2, failure.value, bound, table, applets, v0);
      run := Failed(s2, failure.value);
    } else {
      SecondPassDecided(s1, table, applets, v0);
      run := Seal(s1, s2, table, applets, v0);
    }
  }

  /** Closes the workflow once both passes have run to the end. */
  method Seal(s1: Session, s2: Session, table: StageTable, applets: map<string, string>, v0: nat) returns (run: Run)
    requires AttachedUpTo(s1, table, applets, v0, |table|)
    requires BoundUpTo(s2, s1, |s1.table|)
    requires CallsInOrder(s2.calls, v0) && forall k :: 0 <= k < |s2.calls| ==> !s2.calls[k].CloseCall?
    ensures run.Sealed? && Built(run.session, table, applets, v0) && CallsInOrder(run.session.calls, v0)
    ensures forall k :: 0 <= k < |run.session.calls| && run.session.calls[k].UpdateStageCall? ==>
      |table| <= k && forall j :: 0 <= j < |table| ==> run.session.calls[j].AddStageCall?
  {
    SealedIsBuilt(s1, s2, table, applets, v0);
    CloseCallLast(s2.calls, v0);
    return Sealed(s2.(workflow := Close(s2.workflow), calls := s2.calls + [CloseCall]));
  }
}

=== FILE: builder.dfy ===
/**
 * The workflow builder: adds every configured stage to a fresh remote
 * workflow, recording each returned stage id, then binds every stage's
 * resolved inputs, then closes the workflow. Each mutation carries the edit
 * version read from the workflow immediately before it.
 */
module Builder {
  import opened Results
  import opened Json
  import opened Numerals
  import opened Stages
  import opened RemoteWorkflow
  import opened Resolver

  /** A mutating call made on the remote workflow, with the edit version it carried. */
  datatype Call =
    | AddStageCall(editVersion: nat, executable: string, folder: string)
    | UpdateStageCall(editVersion: nat, stage: nat, input: map<string, Value>)
    | CloseCall

  /** The builder's view: the stage table (gaining ids), the remote workflow, and the calls made so far. */
  datatype Session = Session(table: StageTable, workflow: Workflow, calls: seq<Call>)

  datatype BuildError =
    | StageMissing(key: string)
    | UnknownExecutable(name: string)
    | Rejected(cause: RemoteError)
    | Unresolved(key: string, reason: ResolveError)

  /** A build either closes the workflow or stops at the first error, leaving the remote as it was then. */
  datatype Run = Sealed(session: Session) | Failed(session: Session, error: BuildError)

  predicate StaleVersionError(e: BuildError)
  {
    e.Rejected? && e.cause.StaleVersion?
  }

  /**
   * The applet ids collected before the workflow is created: each stage's
   * executable is built by `build` (the external build step) and its id kept
   * under the executable's name.
   */
  function AppletIds(table: StageTable, build: string -> string): (applets: map<string, string>)
    ensures applets.Keys == set k | k in table :: table[k].executable
    ensures forall k :: k in table ==> table[k].executable in applets && applets[table[k].executable] == build(table[k].executable)
  {
    map e | e in (set k | k in table :: table[k].executable) :: build(e)
  }

  /**
   * With the applet map the build step produces, every stage's executable
   * has an id, so the configuration builds exactly when it is indexed
   * "0" .. "N-1" and every stage's inputs are resolvable.
   */
  lemma AppletIdsBuildable(table: StageTable, build: string -> string)
    ensures Buildable(table, AppletIds(table, build))
        <==> WellIndexed(table) && forall k :: k in table ==> InputsResolvable(table[k], table.Keys)
  {
  }

  /** Adds stage `key` to the workflow and records the id the workflow returns as that stage's `dxid`. */
  function AddStageExecutable(s: Session, applets: map<string, string>, key: string): (r: Result<Session, BuildError>)
    ensures r.Success? <==> key in s.table && s.table[key].executable in applets && !s.workflow.closed
    ensures key !in s.table ==> r == Failure(StageMissing(key))
    ensures r.Failure? && r.error.StageMissing? ==> key !in s.table
    ensures r.Failure? && r.error.UnknownExecutable? ==>
      key in s.table && r.error.name == s.table[key].executable && r.error.name !in applets
    ensures r.Failure? ==> !StaleVersionError(r.error)
    ensures r.Success? ==>
      var c, w, w' := s.table[key], s.workflow, r.value.workflow;
      && |w'.stages| == |w.stages| + 1
      && w'.stages[..|w.stages|] == w.stages
      && w'.stages[|w.stages|].executable == applets[c.executable]
      && w'.stages[|w.stages|].folder == c.folder
      && w'.stages[|w.stages|].input == map[]
      && w'.stages[|w.stages|].id != ""
      && r.value.table == s.table[key := c.(dxid := Some(w'.stages[|w.stages|].id))]
      && w'.editVersion == w.editVersion + 1 && !w'.closed
      && r.value.calls == s.calls + [AddStageCall(w.editVersion, applets[c.executable], c.folder)]
  {
    if key !in s.table then Failure(StageMissing(key))
    else
      // the version the workflow describes right now
      var version := s.workflow.editVersion;
      var c := s.table[key];
      if c.executable !in applets then Failure(UnknownExecutable(c.executable))
      else
        match AddStage(s.workflow, version, applets[c.executable], c.folder)
        case Failure(e) => Failure(Rejected(e))
        case Success((w, id)) =>
          Success(Session(s.table[key := c.(dxid := Some(id))], w,
                          s.calls + [AddStageCall(version, applets[c.executable], c.folder)]))
  }

  /**
   * Resolves the inputs of stage `i` and binds them on the workflow stage at
   * position `i` (the remote reads the decimal stage key as a position).
   */
  function SetStageInputs(s: Session, i: nat): (r: Result<Session, BuildError>)
    ensures r.Success? <==>
      ResolveStageInputs(s.table, StageKey(i)).Success? && i < |s.workflow.stages| && !s.workflow.closed
    ensures ResolveStageInputs(s.table, StageKey(i)).Failure? ==>
      r == Failure(Unresolved(StageKey(i), ResolveStageInputs(s.table, StageKey(i)).error))
    ensures r.Failure? ==> !StaleVersionError(r.error)
    ensures r.Success? ==>
      var input, w, w' := ResolveStageInputs(s.table, StageKey(i)).value, s.workflow, r.value.workflow;
      && r.value.table == s.table
      && |w'.stages| == |w.stages|
      && w'.stages[i] == w.stages[i].(input := input)
      && (forall k :: 0 <= k < |w.stages| && k != i ==> w'.stages[k] == w.stages[k])
      && w'.editVersion == w.editVersion + 1 && !w'.closed
      && r.value.calls == s.calls + [UpdateStageCall(w.editVersion, i, input)]
  {
    match ResolveStageInputs(s.table, StageKey(i))
    case Failure(e) => Failure(Unresolved(StageKey(i), e))
    case Success(input) =>
      var version := s.workflow.editVersion;
      match UpdateStage(s.workflow, version, i, input)
      case Failure(e) => Failure(Rejected(e))
      case Success(w) => Success(s.(workflow := w, calls := s.calls + [UpdateStageCall(version, i, input)]))
  }

  /** The session after stages `0 .. i-1` of `table` were added to a workflow created at version `v0`. */
  predicate AttachedUpTo(s: Session, table: StageTable, applets: map<string, string>, v0: nat, i: nat)
  {
    && s.table.Keys == table.Keys
    && (forall k :: k in table ==> s.table[k].(dxid := table[k].dxid) == table[k])
    && |s.workflow.stages| == i && !s.workflow.closed && s.workflow.editVersion == v0 + i
    && |s.calls| == i
    && forall j :: 0 <= j < i ==>
         && StageKey(j) in table
         && table[StageKey(j)].executable in applets
         && s.workflow.stages[j].id != ""
         && s.table[StageKey(j)].dxid == Some(s.workflow.stages[j].id)
         && s.workflow.stages[j].executable == applets[table[StageKey(j)].executable]
         && s.workflow.stages[j].folder == table[StageKey(j)].folder
         && s.workflow.stages[j].input == map[]
         && s.calls[j] == AddStageCall(v0 + j, s.workflow.stages[j].executable, s.workflow.stages[j].folder)
  }

  /** Adding stage `i` to a session that holds stages `0 .. i-1` gives one that holds `0 .. i`. */
  lemma AttachStep(s: Session, next: Session, table: StageTable, applets: map<string, string>, v0: nat, i: nat)
    requires AttachedUpTo(s, table, applets, v0, i)
    requires AddStageExecutable(s, applets, StageKey(i)) == Success(next)
    ensures AttachedUpTo(next, table, applets, v0, i + 1)
  {
    AttachStepTable(s, next, table, applets, v0, i);
    AttachStepCalls(s, next, table, applets, v0, i);
    AttachStepStages(s, next, table, applets, v0, i);
  }

  /** The stage half of `AttachStep`: earlier stages are kept and the new one runs the stage's applet in its folder. */
  lemma AttachStepStages(s: Session, next: Session, table: StageTable, applets: map<string, string>, v0: nat, i: nat)
    requires AttachedUpTo(s, table, applets, v0, i)
    requires AddStageExecutable(s, applets, StageKey(i)) == Success(next)
    ensures |next.workflow.stages| == i + 1 && !next.workflow.closed && next.workflow.editVersion == v0 + i + 1
    ensures forall j :: 0 <= j < i + 1 ==>
      && StageKey(j) in table
      && table[StageKey(j)].executable in applets
      && next.workflow.stages[j].id != ""
      && next.workflow.stages[j].executable == applets[table[StageKey(j)].executable]
      && next.workflow.stages[j].folder == table[StageKey(j)].folder
      && next.workflow.stages[j].input == map[]
  {
    forall j | 0 <= j < i
      ensures next.workflow.stages[j] == s.workflow.stages[j]
    {
    }
  }

  /** The table half of `AttachStep`: only the new stage gains an id, the one the workflow returned. */
  lemma AttachStepTable(s: Session, next: Session, table: StageTable, applets: map<string, string>, v0: nat, i: nat)
    requires AttachedUpTo(s, table, applets, v0, i)
    requires AddStageExecutable(s, applets, StageKey(i)) == Success(next)
    ensures next.table.Keys == table.Keys
    ensures forall k :: k in table ==> next.table[k].(dxid := table[k].dxid) == table[k]
    ensures forall j :: 0 <= j < i + 1 ==> next.table[StageKey(j)].dxid == Some(next.workflow.stages[j].id)
  {
    var key := StageKey(i);
    forall j | 0 <= j < i
      ensures StageKey(j) != key
    {
      DecimalInjective(j, i);
    }
    assert next.table == s.table[key := s.table[key].(dxid := Some(next.workflow.stages[i].id))];
    forall j | 0 <= j < i
      ensures next.table[StageKey(j)].dxid == Some(next.workflow.stages[j].id)
    {
      assert next.workflow.stages[j] == s.workflow.stages[j];
    }
  }

  /** The call-log half of `AttachStep`: the new call is an add carrying version `v0 + i`. */
  lemma AttachStepCalls(s: Session, next: Session, table: StageTable, applets: map<string, string>, v0: nat, i: nat)
    requires AttachedUpTo(s, table, applets, v0, i)
    requires AddStageExecutable(s, applets, StageKey(i)) == Success(next)
    ensures |next.calls| == i + 1
    ensures forall j :: 0 <= j < i + 1 ==>
      next.calls[j] == AddStageCall(v0 + j, next.workflow.stages[j].executable, next.workflow.stages[j].folder)
  {
    forall j | 0 <= j < i + 1
      ensures next.calls[j] == AddStageCall(v0 + j, next.workflow.stages[j].executable, next.workflow.stages[j].folder)
    {
      if j < i {
        assert next.calls[j] == s.calls[j];
        assert next.workflow.stages[j] == s.workflow.stages[j];
      }
    }
  }

  /** The first pass: adds stages "0" .. "N-1" in index order to a new workflow at version `v0`. */
  method AttachStages(table: StageTable, applets: map<string, string>, v0: nat) returns (s: Session, failure: Option<BuildError>)
    ensures failure.None? <==> WellIndexed(table) && forall k :: k in table ==> table[k].executable in applets
    ensures failure.None? ==> AttachedUpTo(s, table, applets, v0, |table|)
    ensures failure.Some? ==> failure.value.StageMissing? || failure.value.UnknownExecutable?
    ensures failure.Some? && failure.value.StageMissing? ==> !WellIndexed(table)
    ensures failure.Some? && failure.value.UnknownExecutable? ==> failure.value.name !in applets && exists k :: k in table && table[k].executable == failure.value.name
    ensures !s.workflow.closed
    ensures forall k :: 0 <= k < |s.calls| ==> s.calls[k].AddStageCall? && s.calls[k].editVersion == v0 + k
  {
    s := Session(table, NewWorkflow(v0), []);
    var i := 0;
    while i < |table|
      invariant i <= |table|
      invariant AttachedUpTo(s, table, applets, v0, i)
    {
      match AddStageExecutable(s, applets, StageKey(i))
      case Failure(e) =>
        AttachFails(s, table, applets, v0, i, e);
        return s, Some(e);
      case Success(next) =>
        AttachStep(s, next, table, applets, v0, i);
        s := next;
      i := i + 1;
    }
    WellIndexedKeys(table);
    failure := None;
  }

  /** A first pass that stops at stage `i` has met a missing key or an executable without an applet id. */
  lemma AttachFails(s: Session, table: StageTable, applets: map<string, string>, v0: nat, i: nat, e: BuildError)
    requires i < |table| && AttachedUpTo(s, table, applets, v0, i)
    requires AddStageExecutable(s, applets, StageKey(i)) == Failure(e)
    ensures !(WellIndexed(table) && forall k :: k in table ==> table[k].executable in applets)
    ensures e.StageMissing? || e.UnknownExecutable?
    ensures e.StageMissing? ==> !WellIndexed(table)
    ensures e.UnknownExecutable? ==> e.name !in applets && exists k :: k in table && table[k].executable == e.name
  {
    if e.UnknownExecutable? {
      assert s.table[StageKey(i)].executable == table[StageKey(i)].executable;
    }
  }

  /** The session after inputs of stages `0 .. i-1` were bound, starting from the first pass's result `s1`. */
  predicate BoundUpTo(s: Session, s1: Session, i: nat)
  {
    var n, m, v := |s1.table|, |s1.calls|, s1.workflow.editVersion;
    && i <= n
    && s.table == s1.table && !s.workflow.closed
    && |s.workflow.stages| == |s1.workflow.stages| == n
    && s.workflow.editVersion == v + i
    && |s.calls| == m + i && s.calls[..m] == s1.calls
    && (forall j :: 0 <= j < n ==> s.workflow.stages[j] == s1.workflow.stages[j].(input := s.workflow.stages[j].input))
    && (forall j :: 0 <= j < i ==> ResolveStageInputs(s1.table, StageKey(j)) == Success(s.workflow.stages[j].input))
    && (forall k :: m <= k < m + i ==> s.calls[k] == UpdateStageCall(v + (k - m), k - m, s.workflow.stages[k - m].input))
  }

  /**
   * `next` is `s` with `input` bound on workflow stage `i` at the current
   * version, as a successful `SetStageInputs(s, i)` leaves it.
   */
  predicate BindsStage(s: Session, next: Session, i: nat, input: map<string, Value>)
  {
    && next.table == s.table
    && i < |s.workflow.stages| == |next.workflow.stages|
    && next.workflow.stages[i] == s.workflow.stages[i].(input := input)
    && (forall k :: 0 <= k < |s.workflow.stages| && k != i ==> next.workflow.stages[k] == s.workflow.stages[k])
    && next.workflow.editVersion == s.workflow.editVersion + 1 && !next.workflow.closed
    && next.calls == s.calls + [UpdateStageCall(s.workflow.editVersion, i, input)]
  }

  /** Binding stage `i` on a session that bound stages `0 .. i-1` gives one that bound `0 .. i`. */
  lemma BindStep(s: Session, next: Session, s1: Session, i: nat, input: map<string, Value>)
    requires i < |s1.table|
    requires BoundUpTo(s, s1, i)
    requires ResolveStageInputs(s1.table, StageKey(i)) == Success(input)
    requires BindsStage(s, next, i, input)
    ensures BoundUpTo(next, s1, i + 1)
  {
    BindStepStages(s, next, s1, i, input);
    BindStepCalls(s, next, s1, i, input);
  }

  /** The call-log half of `BindStep`: the new call updates stage `i` at version `v + i`. */
  lemma BindStepCalls(s: Session, next: Session, s1: Session, i: nat, input: map<string, Value>)
    requires BindsStage(s, next, i, input)
    requires |s.calls| == |s1.calls| + i && s.calls[..|s1.calls|] == s1.calls
    requires s.workflow.editVersion == s1.workflow.editVersion + i
    requires forall k :: |s1.calls| <= k < |s1.calls| + i ==>
      s.calls[k] == UpdateStageCall(s1.workflow.editVersion + (k - |s1.calls|), k - |s1.calls|, s.workflow.stages[k - |s1.calls|].input)
    ensures |next.calls| == |s1.calls| + i + 1 && next.calls[..|s1.calls|] == s1.calls
    ensures forall k :: |s1.calls| <= k < |s1.calls| + i + 1 ==>
      next.calls[k] == UpdateStageCall(s1.workflow.editVersion + (k - |s1.calls|), k - |s1.calls|, next.workflow.stages[k - |s1.calls|].input)
  {
    var m, v := |s1.calls|, s1.workflow.editVersion;
    assert next.calls[..m] == s.calls[..m];
    forall k | m <= k < m + i + 1
      ensures next.calls[k] == UpdateStageCall(v + (k - m), k - m, next.workflow.stages[k - m].input)
    {
      if k < m + i {
        assert next.calls[k] == s.calls[k];
        assert next.workflow.stages[k - m] == s.workflow.stages[k - m];
      }
    }
  }

  /** The stage half of `BindStep`. */
  lemma BindStepStages(s: Session, next: Session, s1: Session, i: nat, input: map<string, Value>)
    requires i < |s1.table|
    requires BoundUpTo(s, s1, i)
    requires ResolveStageInputs(s1.table, StageKey(i)) == Success(input)
    requires BindsStage(s, next, i, input)
    ensures forall j :: 0 <= j < |s1.table| ==>
      next.workflow.stages[j] == s1.workflow.stages[j].(input := next.workflow.stages[j].input)
    ensures forall j :: 0 <= j < i + 1 ==>
      ResolveStageInputs(s1.table, StageKey(j)) == Success(next.workflow.stages[j].input)
  {
    forall j | 0 <= j < |s1.table|
      ensures next.workflow.stages[j] == s1.workflow.stages[j].(input := next.workflow.stages[j].input)
    {
      if j != i {
        assert next.workflow.stages[j] == s.workflow.stages[j];
      }
    }
    forall j | 0 <= j < i + 1
      ensures ResolveStageInputs(s1.table, StageKey(j)) == Success(next.workflow.stages[j].input)
    {
      if j < i {
        assert next.workflow.stages[j] == s.workflow.stages[j];
      }
    }
  }

  /** The second pass: binds the resolved inputs of stages 0 .. N-1 in index order. */
  method BindStages(s1: Session) returns (s: Session, failure: Option<BuildError>, bound: nat)
    requires |s1.workflow.stages| == |s1.table| && !s1.workflow.closed
    ensures failure.None? <==> forall i :: 0 <= i < |s1.table| ==> ResolveStageInputs(s1.table, StageKey(i)).Success?
    ensures failure.Some? ==> failure.value.Unresolved?
    ensures |s.calls| == |s1.calls| + bound
    ensures forall i :: 0 <= i < bound ==> ResolveStageInputs(s1.table, StageKey(i)).Success?
    ensures failure.Some? ==>
      && bound < |s1.table|
      && ResolveStageInputs(s1.table, StageKey(bound)).Failure?
      && failure.value == Unresolved(StageKey(bound), ResolveStageInputs(s1.table, StageKey(bound)).error)
    ensures !s.workflow.closed && s.table == s1.table
    ensures |s1.calls| <= |s.calls| <= |s1.calls| + |s1.table| && s.calls[..|s1.calls|] == s1.calls
    ensures forall k :: |s1.calls| <= k < |s.calls| ==>
      && s.calls[k].UpdateStageCall?
      && s.calls[k].stage == k - |s1.calls|
      && s.calls[k].editVersion == s1.workflow.editVersion + (k - |s1.calls|)
    ensures failure.None? ==> bound == |s1.table| && BoundUpTo(s, s1, |s1.table|)
  {
    s := s1;
    var i := 0;
    while i < |s1.table|
      invariant i <= |s1.table|
      invariant BoundUpTo(s, s1, i)
      invariant forall j :: 0 <= j < i ==> ResolveStageInputs(s1.table, StageKey(j)).Success?
    {
      match SetStageInputs(s, i)
      case Failure(e) =>
        return s, Some(e), i;
      case Success(next) =>
        BindStep(s, next, s1, i, ResolveStageInputs(s1.table, StageKey(i)).value);
        s := next;
      i := i + 1;
    }
    failure, bound := None, i;
  }

  /**
   * Once the first pass has given every stage a non-empty id, a stage's
   * inputs resolve exactly when its links are well formed and name any key
   * of the table: earlier, later or itself.
   */
  lemma PassOneEnablesPassTwo(s1: Session, table: StageTable, applets: map<string, string>, v0: nat)
    requires AttachedUpTo(s1, table, applets, v0, |table|)
    ensures Attached(s1.table) == table.Keys
    ensures forall k :: k in table ==>
      (ResolveStageInputs(s1.table, k).Success? <==> InputsResolvable(table[k], table.Keys))
    ensures (forall i :: 0 <= i < |table| ==> ResolveStageInputs(s1.table, StageKey(i)).Success?)
        <==> (forall k :: k in table ==> InputsResolvable(table[k], table.Keys))
  {
    EveryStageAttached(s1.table, table);
    forall k | k in table
      ensures ResolveStageInputs(s1.table, k).Success? <==> InputsResolvable(table[k], table.Keys)
    {
      assert s1.table[k].input == table[k].input;
      assert s1.table[k].linkedInput == table[k].linkedInput;
    }
    WellIndexedKeys(table);
  }

  /**
   * After the first pass, the second pass binds every stage exactly when
   * every stage's inputs are resolvable. This is the last conclusion of
   * `PassOneEnablesPassTwo` on its own: a caller that needs only it keeps
   * the per-key conclusions out of its proof context.
   */
  lemma SecondPassDecided(s1: Session, table: StageTable, applets: map<string, string>, v0: nat)
    requires AttachedUpTo(s1, table, applets, v0, |table|)
    ensures (forall i :: 0 <= i < |table| ==> ResolveStageInputs(s1.table, StageKey(i)).Success?)
        <==> (forall k :: k in table ==> InputsResolvable(table[k], table.Keys))
  {
    PassOneEnablesPassTwo(s1, table, applets, v0);
  }

  /** A stage whose inputs do not resolve after the first pass is a table stage whose inputs are not resolvable. */
  lemma UnresolvedStage(s1: Session, table: StageTable, applets: map<string, string>, v0: nat, j: nat)
    requires AttachedUpTo(s1, table, applets, v0, |table|)
    requires j < |table| && ResolveStageInputs(s1.table, StageKey(j)).Failure?
    ensures StageKey(j) in table && !InputsResolvable(table[StageKey(j)], table.Keys)
  {
    PassOneEnablesPassTwo(s1, table, applets, v0);
  }

  /** If keys "0" .. "N-1" carry non-empty ids, every key of the table does. */
  lemma EveryStageAttached(t1: StageTable, table: StageTable)
    requires WellIndexed(table)
    requires t1.Keys == table.Keys
    requires forall j :: 0 <= j < |table| ==> t1[StageKey(j)].dxid.Some? && t1[StageKey(j)].dxid.value != ""
    ensures Attached(t1) == table.Keys
    ensures forall k :: k in table ==> t1[k].dxid.Some? && t1[k].dxid.value != ""
  {
    WellIndexedKeys(table);
    forall k | k in table
      ensures t1[k].dxid.Some? && t1[k].dxid.value != ""
    {
      assert k in KeysBelow(|table|);
      var j :| 0 <= j < |table| && StageKey(j) == k;
    }
    assert Attached(t1) == table.Keys by {
      forall k | k in table
        ensures k in Attached(t1)
      {
      }
    }
  }

  /** The configuration builds: indices "0" .. "N-1", known executables, resolvable inputs. */
  predicate Buildable(table: StageTable, applets: map<string, string>)
  {
    && WellIndexed(table)
    && (forall k :: k in table ==> table[k].executable in applets)
    && (forall k :: k in table ==> InputsResolvable(table[k], table.Keys))
  }

  /**
   * Every mutation carried the version the workflow had when it was made
   * (the workflow was created at `v0` and each accepted call advances it),
   * no stage was added after any input was bound, and closing came last.
   */
  predicate CallsInOrder(calls: seq<Call>, v0: nat)
  {
    && (forall k :: 0 <= k < |calls| && !calls[k].CloseCall? ==> calls[k].editVersion == v0 + k)
    && (forall a, b :: 0 <= a < b < |calls| && calls[a].UpdateStageCall? ==> !calls[b].AddStageCall?)
    && (forall k :: 0 <= k < |calls| && calls[k].CloseCall? ==> k == |calls| - 1)
  }

  /** The closed workflow built from `table`: stage `i` is the stage added for key `i`, bound to its resolved inputs. */
  predicate Built(s: Session, table: StageTable, applets: map<string, string>, v0: nat)
  {
    var w, n := s.workflow, |table|;
    && w.closed && |w.stages| == n && w.editVersion == v0 + 2 * n
    && s.table.Keys == table.Keys
    && (forall k :: k in table ==> s.table[k].(dxid := table[k].dxid) == table[k])
    && |s.calls| == 2 * n + 1 && s.calls[2 * n] == CloseCall
    && forall i :: 0 <= i < n ==>
         && StageKey(i) in table
         && table[StageKey(i)].executable in applets
         && s.table[StageKey(i)].dxid == Some(w.stages[i].id)
         && w.stages[i].executable == applets[table[StageKey(i)].executable]
         && w.stages[i].folder == table[StageKey(i)].folder
         && ResolveStageInputs(s.table, StageKey(i)) == Success(w.stages[i].input)
         && s.calls[i].AddStageCall?
         && s.calls[n + i] == UpdateStageCall(v0 + n + i, i, w.stages[i].input)
  }

  /** The calls of a build that stopped during either pass, or finished both. */
  lemma PassCallsInOrder(calls1: seq<Call>, calls2: seq<Call>, v0: nat)
    requires forall k :: 0 <= k < |calls1| ==> calls1[k].AddStageCall? && calls1[k].editVersion == v0 + k
    requires |calls1| <= |calls2| && calls2[..|calls1|] == calls1
    requires forall k :: |calls1| <= k < |calls2| ==>
      calls2[k].UpdateStageCall? && calls2[k].editVersion == v0 + |calls1| + (k - |calls1|)
    ensures CallsInOrder(calls1, v0)
    ensures CallsInOrder(calls2, v0)
    ensures forall k :: 0 <= k < |calls2| ==> !calls2[k].CloseCall?
    ensures forall k :: 0 <= k < |calls2| && calls2[k].UpdateStageCall? ==>
      |calls1| <= k && forall j :: 0 <= j < |calls1| ==> calls2[j].AddStageCall?
  {
  }

  /**
   * A second pass that stops at stage `j` names a table stage whose inputs
   * are not resolvable, keeps the first pass's adds in front and logs no close.
   */
  lemma SecondPassStopped(s1: Session, s2: Session, e: BuildError, j: nat, table: StageTable, applets: map<string, string>, v0: nat)
    requires AttachedUpTo(s1, table, applets, v0, |table|)
    requires
      && j < |s1.table|
      && ResolveStageInputs(s1.table, StageKey(j)).Failure?
      && e == Unresolved(StageKey(j), ResolveStageInputs(s1.table, StageKey(j)).error)
    requires |s1.calls| <= |s2.calls| && s2.calls[..|s1.calls|] == s1.calls
    requires forall k :: |s1.calls| <= k < |s2.calls| ==> s2.calls[k].UpdateStageCall?
    ensures e.Unresolved? && e.key in table && !InputsResolvable(table[e.key], table.Keys)
    ensures forall j :: 0 <= j < |table| ==> s2.calls[j].AddStageCall?
    ensures forall k :: 0 <= k < |s2.calls| ==> !s2.calls[k].CloseCall?
  {
    assert |s1.table| == |table| by {
      assert s1.table.Keys == table.Keys;
    }
    UnresolvedStage(s1, table, applets, v0, j);
    BindFailedCalls(s1.calls, s2.calls, |table|);
  }

  /** A second pass that stopped left the first pass's adds in front and logged no close. */
  lemma BindFailedCalls(calls1: seq<Call>, calls2: seq<Call>, n: nat)
    requires |calls1| == n && forall k :: 0 <= k < n ==> calls1[k].AddStageCall?
    requires n <= |calls2| && calls2[..n] == calls1
    requires forall k :: n <= k < |calls2| ==> calls2[k].UpdateStageCall?
    ensures forall j :: 0 <= j < n ==> calls2[j].AddStageCall?
    ensures forall k :: 0 <= k < |calls2| ==> !calls2[k].CloseCall?
  {
    forall j | 0 <= j < n
      ensures calls2[j].AddStageCall?
    {
      assert calls2[..n][j] == calls2[j];
    }
  }

  /** Appending the close to calls that contain none keeps them in order. */
  lemma CloseCallLast(calls: seq<Call>, v0: nat)
    requires CallsInOrder(calls, v0)
    requires forall k :: 0 <= k < |calls| ==> !calls[k].CloseCall?
    ensures CallsInOrder(calls + [CloseCall], v0)
  {
  }

  /** Closing the workflow after both passes gives the workflow `Built` describes. */
  lemma SealedIsBuilt(s1: Session, s2: Session, table: StageTable, applets: map<string, string>, v0: nat)
    requires AttachedUpTo(s1, table, applets, v0, |table|)
    requires BoundUpTo(s2, s1, |s1.table|)
    ensures Built(s2.(workflow := Close(s2.workflow), calls := s2.calls + [CloseCall]), table, applets, v0)
  {
    SealedCalls(s1, s2, table, applets, v0);
    var calls := s2.calls + [CloseCall];
    forall i | 0 <= i < 2 * |table|
      ensures calls[i] == s2.calls[i]
    {
    }
  }

  /** After both passes the calls are the N adds followed by the N updates, each with its version. */
  lemma SealedCalls(s1: Session, s2: Session, table: StageTable, applets: map<string, string>, v0: nat)
    requires AttachedUpTo(s1, table, applets, v0, |table|)
    requires BoundUpTo(s2, s1, |s1.table|)
    ensures |s2.calls| == 2 * |table|
    ensures forall i :: 0 <= i < |table| ==>
      && s2.calls[i].AddStageCall?
      && s2.calls[|table| + i] == UpdateStageCall(v0 + |table| + i, i, s2.workflow.stages[i].input)
  {
    var n := |table|;
    assert |s1.calls| == n && s1.workflow.editVersion == v0 + n;
    forall i | 0 <= i < n
      ensures s2.calls[i].AddStageCall?
    {
      assert s2.calls[..n][i] == s2.calls[i];
    }
  }

  /** Stage "0" draws `reads` from the later stage "1" and `again` from its own output. */
  function ForwardAndSelfLinks(): StageTable
  {
    var toLater := JObject(map["field" := JString("out"), "stage" := JString("1")]);
    var toSelf := JObject(map["field" := JString("out"), "stage" := JString("0")]);
    map[
      "0" := StageConfig("align", "/out", map[], map["reads" := toLater, "again" := JArray([toSelf])], None),
      "1" := StageConfig("align", "/out", map["n" := JNumber(1)], map[], None)]
  }

  /** No backward-only check: links to a later stage and to the stage itself still build. */
  lemma ForwardAndSelfLinksBuild()
    ensures Buildable(ForwardAndSelfLinks(), map["align" := "applet-1"])
  {
    var table := ForwardAndSelfLinks();
    assert table.Keys == {"0", "1"};
    ForwardAndSelfLinksIndexed(table);
    ForwardAndSelfLinksResolvable(table);
  }

  /** Any table whose keys are "0" and "1" is indexed "0" .. "N-1". */
  lemma ForwardAndSelfLinksIndexed(table: StageTable)
    requires table.Keys == {"0", "1"}
    ensures WellIndexed(table)
  {
    assert |table| == |table.Keys| == 2;
    assert StageKey(0) == "0";
    assert StageKey(1) == "1";
  }

  /** The forward link and the self link both name keys of the table, so both stages resolve. */
  lemma ForwardAndSelfLinksResolvable(table: StageTable)
    requires table == ForwardAndSelfLinks()
    ensures forall k :: k in table ==> InputsResolvable(table[k], table.Keys)
  {
    assert SentinelNames(table["0"]) == {};
    assert SentinelNames(table["1"]) == {};
    var linked := table["0"].linkedInput;
    assert LinkedEntryOk(linked["reads"], table.Keys);
    assert LinkedEntryOk(linked["again"], table.Keys);
  }
}

=== FILE: json.dfy ===
/** JSON values as the workflow configuration and the remote platform exchange them. */
module Json {

  /** A JSON document. Numbers are integers; objects map string keys to values. */
  datatype Value =
    | JNull
    | JBool(b: bool)
    | JNumber(n: int)
    | JString(str: string)
    | JArray(items: seq<Value>)
    | JObject(fields: map<string, Value>)
}

=== FILE: numerals.dfy ===
/** Decimal rendering of stage indices, as Python's `str` renders a non-negative int. */
module Numerals {

  /** The character of the decimal digit `d`. */
  function Digit(d: nat): (c: char)
    requires d < 10
    ensures '0' <= c <= '9'
  {
    (d + '0' as int) as char
  }

  /** The decimal numeral of `n`: no sign and no leading zero. */
  function Decimal(n: nat): (s: string)
    ensures 1 <= |s|
    ensures n < 10 <==> |s| == 1
    ensures s[0] == '0' ==> n == 0
    ensures forall k :: 0 <= k < |s| ==> '0' <= s[k] <= '9'
  {
    if n < 10 then [Digit(n)] else Decimal(n / 10) + [Digit(n % 10)]
  }

  /** Distinct numbers have distinct numerals, so the keys "0", "1", ... never collide. */
  lemma {:induction false} DecimalInjective(a: nat, b: nat)
    ensures Decimal(a) == Decimal(b) <==> a == b
  {
    if Decimal(a) == Decimal(b) && a >= 10 && b >= 10 {
      var s := Decimal(a);
      assert s[..|s| - 1] == Decimal(a / 10);
      assert Decimal(b)[..|s| - 1] == Decimal(b / 10);
      DecimalInjective(a / 10, b / 10);
      assert Digit(a % 10) == s[|s| - 1] == Digit(b % 10);
    }
  }
}

=== FILE: remote.dfy ===
/**
 * The remote workflow object as the builder sees it: an edit version, an
 * append-only list of stages, and a closed flag. Every mutation names the
 * edit version it expects and is refused if that version is stale.
 */
module RemoteWorkflow {
  import opened Results
  import opened Json
  import opened Numerals

  /** A stage of the remote workflow: its platform id, executable, output folder and bound inputs. */
  datatype Stage = Stage(id: string, executable: string, folder: string, input: map<string, Value>)

  datatype Workflow = Workflow(editVersion: nat, stages: seq<Stage>, closed: bool)

  datatype RemoteError =
    | Closed
    | StaleVersion(current: nat, given: nat)
    | NoStageAt(position: nat)

  /** A freshly created workflow: open, with no stages. */
  function NewWorkflow(version: nat): Workflow
  {
    Workflow(version, [], false)
  }

  /** The id the remote gives to the stage appended at `position`. */
  function NewStageId(position: nat): string
  {
    "stage-" + Decimal(position)
  }

  /** Appends a stage with no inputs and returns the updated workflow and the new stage's id. */
  function AddStage(w: Workflow, version: nat, executable: string, folder: string): (r: Result<(Workflow, string), RemoteError>)
    ensures r.Success? <==> !w.closed && version == w.editVersion
    ensures w.closed ==> r == Failure(Closed)
    ensures r.Success? ==>
      var (w', id) := r.value;
      && id != ""
      && w'.stages == w.stages + [Stage(id, executable, folder, map[])]
      && w'.editVersion == w.editVersion + 1
      && !w'.closed
  {
    if w.closed then Failure(Closed)
    else if version != w.editVersion then Failure(StaleVersion(w.editVersion, version))
    else
      var id := NewStageId(|w.stages|);
      Success((w.(editVersion := w.editVersion + 1, stages := w.stages + [Stage(id, executable, folder, map[])]), id))
  }

  /** Replaces the inputs of the stage at `position`; every other stage is left as it was. */
  function UpdateStage(w: Workflow, version: nat, position: nat, input: map<string, Value>): (r: Result<Workflow, RemoteError>)
    ensures r.Success? <==> !w.closed && version == w.editVersion && position < |w.stages|
    ensures w.closed ==> r == Failure(Closed)
    ensures r.Success? ==>
      && |r.value.stages| == |w.stages|
      && r.value.stages[position] == w.stages[position].(input := input)
      && (forall k :: 0 <= k < |w.stages| && k != position ==> r.value.stages[k] == w.stages[k])
      && r.value.editVersion == w.editVersion + 1
      && !r.value.closed
  {
    if w.closed then Failure(Closed)
    else if version != w.editVersion then Failure(StaleVersion(w.editVersion, version))
    else if position >= |w.stages| then Failure(NoStageAt(position))
    else
      var stage := w.stages[position].(input := input);
      Success(w.(editVersion := w.editVersion + 1, stages := w.stages[position := stage]))
  }

  /** Closes the workflow: its stages stay, and no later mutation is accepted. */
  function Close(w: Workflow): (w': Workflow)
    ensures w'.stages == w.stages
    ensures forall version, executable, folder :: AddStage(w', version, executable, folder).Failure?
    ensures forall version, position, input :: UpdateStage(w', version, position, input).Failure?
  {
    w.(closed := true)
  }
}

=== FILE: resolver.dfy ===
/**
 * Resolution of one stage's configured inputs into the input map bound on the
 * remote stage: standard inputs are copied by name, and linked inputs become
 * link descriptors naming the remote id of the stage they draw from.
 */
module Resolver {
  import opened Results
  import opened Json
  import opened Stages

  /** The platform's link marker, used both as a descriptor key and as a refused standard value. */
  const LinkSentinel := "$dnanexus_link"

  /** Why one link entry failed to resolve. */
  datatype LinkError =
    | NotAnObject(entry: Value)
    | MissingKey(key: string)
    | UnknownStage(reference: Value)
    | StageNotAttached(key: string)
    | FieldNotString(field: Value)

  /** Why a stage's inputs failed to resolve. */
  datatype ResolveError =
    | NoSuchStage(key: string)
    | NoDxid(key: string)
    | EmptyDxid(key: string)
    | SentinelInputs(names: set<string>)
    | BadLinks(errors: map<string, LinkError>)

  /** `link` is an object naming a string `field` and the key of a stage in `targets`. */
  predicate LinkRef(link: Value, targets: set<string>)
  {
    && link.JObject?
    && "field" in link.fields && link.fields["field"].JString?
    && "stage" in link.fields && link.fields["stage"].JString?
    && link.fields["stage"].str in targets
  }

  /** A linked-input entry resolves: one link, or a list of links; other shapes are ignored. */
  predicate LinkedEntryOk(entry: Value, targets: set<string>)
  {
    match entry
    case JObject(_) => LinkRef(entry, targets)
    case JArray(links) => forall k :: 0 <= k < |links| ==> LinkRef(links[k], targets)
    case _ => true
  }

  /** The linked-input names that produce an entry: those whose value is an object or a list. */
  function LinkedNames(linked: map<string, Value>): set<string>
  {
    set n | n in linked && (linked[n].JObject? || linked[n].JArray?)
  }

  /** The standard-input names whose value is the bare link marker string. */
  function SentinelNames(c: StageConfig): set<string>
  {
    set n | n in c.input && c.input[n] == JString(LinkSentinel)
  }

  /** A stage's inputs resolve against stages `targets`: no marker values and every link entry well formed. */
  predicate InputsResolvable(c: StageConfig, targets: set<string>)
  {
    && SentinelNames(c) == {}
    && forall n :: n in c.linkedInput ==> LinkedEntryOk(c.linkedInput[n], targets)
  }

  /**
   * The link descriptor binding input `name` to the output `field` of stage `dxid`.
   * The inner object is built as `{'stage': dxid, field: name}`, so a field called
   * "stage" overwrites the stage id.
   */
  function Descriptor(dxid: string, field: string, name: string): (d: Value)
    ensures d.JObject? && d.fields.Keys == {LinkSentinel}
    ensures d.fields[LinkSentinel].JObject?
    ensures d.fields[LinkSentinel].fields.Keys == {"stage", field}
    ensures d.fields[LinkSentinel].fields[field] == JString(name)
    ensures field != "stage" ==> d.fields[LinkSentinel].fields["stage"] == JString(dxid)
  {
    JObject(map[LinkSentinel := JObject(map["stage" := JString(dxid)][field := JString(name)])])
  }

  /** Resolves one link object for input `name`. */
  function ResolveLink(table: StageTable, name: string, link: Value): (r: Result<Value, LinkError>)
    ensures r.Success? <==> LinkRef(link, Attached(table))
    ensures r.Success? ==>
      r.value == Descriptor(table[link.fields["stage"].str].dxid.value, link.fields["field"].str, name)
  {
    if !link.JObject? then Failure(NotAnObject(link))
    else if "field" !in link.fields then Failure(MissingKey("field"))
    else if "stage" !in link.fields then Failure(MissingKey("stage"))
    else
      var field, stage := link.fields["field"], link.fields["stage"];
      if !stage.JString? || stage.str !in table then Failure(UnknownStage(stage))
      else if table[stage.str].dxid.None? then Failure(StageNotAttached(stage.str))
      else if !field.JString? then Failure(FieldNotString(field))
      else Success(Descriptor(table[stage.str].dxid.value, field.str, name))
  }

  /** Resolves a list of links in order; the first failing element stops the list. */
  function ResolveLinkList(table: StageTable, name: string, links: seq<Value>): (r: Result<seq<Value>, LinkError>)
    ensures r.Success? <==> forall k :: 0 <= k < |links| ==> LinkRef(links[k], Attached(table))
    ensures r.Success? ==>
      && |r.value| == |links|
      && forall k :: 0 <= k < |links| ==> r.value[k] == ResolveLink(table, name, links[k]).value
    ensures r.Failure? ==>
      exists k :: 0 <= k < |links|
        && ResolveLink(table, name, links[k]) == Failure(r.error)
        && forall m :: 0 <= m < k ==> ResolveLink(table, name, links[m]).Success?
    decreases |links|
  {
    if links == [] then Success([])
    else
      match ResolveLink(table, name, links[0])
      case Failure(e) => Failure(e)
      case Success(head) =>
        match ResolveLinkList(table, name, links[1..])
        case Failure(e) =>
          assert forall k :: 1 <= k < |links| ==> links[k] == links[1..][k - 1];
          Failure(e)
        case Success(tail) =>
          assert forall k :: 1 <= k < |links| ==> links[k] == links[1..][k - 1];
          Success([head] + tail)
  }

  /** Resolves one linked-input entry by its shape; an entry of any other shape yields nothing. */
  function ResolveLinkedEntry(table: StageTable, name: string, entry: Value): (r: Result<Option<Value>, LinkError>)
    ensures r.Success? <==> LinkedEntryOk(entry, Attached(table))
    ensures r.Success? ==> (r.value.Some? <==> entry.JObject? || entry.JArray?)
    ensures r.Success? && entry.JObject? ==> r.value == Some(ResolveLink(table, name, entry).value)
    ensures r.Success? && entry.JArray? ==> r.value == Some(JArray(ResolveLinkList(table, name, entry.items).value))
  {
    match entry
    case JObject(_) =>
      (match ResolveLink(table, name, entry)
       case Success(d) => Success(Some(d))
       case Failure(e) => Failure(e))
    case JArray(links) =>
      (match ResolveLinkList(table, name, links)
       case Success(ds) => Success(Some(JArray(ds)))
       case Failure(e) => Failure(e))
    case _ => Success(None)
  }

  /** Resolves every linked input; on failure, reports the error of each entry that failed. */
  function ResolveLinkedInputs(table: StageTable, linked: map<string, Value>): (r: Result<map<string, Value>, map<string, LinkError>>)
    ensures r.Success? <==> forall n :: n in linked ==> LinkedEntryOk(linked[n], Attached(table))
    ensures r.Failure? ==>
      r.error.Keys == set n | n in linked && !LinkedEntryOk(linked[n], Attached(table))
    ensures r.Success? ==> r.value.Keys == LinkedNames(linked)
    ensures r.Success? ==>
      forall n :: n in r.value ==> ResolveLinkedEntry(table, n, linked[n]) == Success(Some(r.value[n]))
  {
    var failures := map n | n in linked && ResolveLinkedEntry(table, n, linked[n]).Failure?
      :: ResolveLinkedEntry(table, n, linked[n]).error;
    if failures != map[] then Failure(failures)
    else
      assert forall n :: n in linked ==> ResolveLinkedEntry(table, n, linked[n]).Success? by {
        forall n | n in linked
          ensures ResolveLinkedEntry(table, n, linked[n]).Success?
        {
          assert n !in failures;
        }
      }
      Success(map n | n in linked && ResolveLinkedEntry(table, n, linked[n]).value.Some?
                :: ResolveLinkedEntry(table, n, linked[n]).value.value)
  }

  /**
   * The input map bound on stage `key`. Checks run in the order the builder
   * performs them: the stage's own id, then standard inputs, then linked
   * inputs; within a phase every offending name is reported.
   */
  function ResolveStageInputs(table: StageTable, key: string): (r: Result<map<string, Value>, ResolveError>)
    ensures r.Success? <==>
      && key in table
      && table[key].dxid.Some? && table[key].dxid.value != ""
      && InputsResolvable(table[key], Attached(table))
    ensures key !in table ==> r == Failure(NoSuchStage(key))
    ensures r.Failure? && r.error.NoSuchStage? ==> key !in table
    ensures r.Failure? && (r.error.NoDxid? || r.error.EmptyDxid?) ==>
      key in table && (table[key].dxid.None? || table[key].dxid.value == "")
    ensures r.Failure? && (r.error.SentinelInputs? || r.error.BadLinks?) ==>
      key in table && table[key].dxid.Some? && table[key].dxid.value != ""
    ensures r.Failure? && r.error.SentinelInputs? ==>
      key in table && r.error.names == SentinelNames(table[key]) != {}
    ensures r.Failure? && r.error.BadLinks? ==>
      && key in table && SentinelNames(table[key]) == {}
      && r.error.errors.Keys
         == set n | n in table[key].linkedInput && !LinkedEntryOk(table[key].linkedInput[n], Attached(table))
    ensures r.Success? ==>
      var c := table[key];
      && r.value.Keys == c.input.Keys + LinkedNames(c.linkedInput)
      && (forall n :: n in c.input && n !in LinkedNames(c.linkedInput) ==> r.value[n] == c.input[n])
      && (forall n :: n in c.linkedInput && c.linkedInput[n].JObject? ==>
            r.value[n] == ResolveLink(table, n, c.linkedInput[n]).value)
      && (forall n :: n in c.linkedInput && c.linkedInput[n].JArray? ==>
            r.value[n] == JArray(ResolveLinkList(table, n, c.linkedInput[n].items).value))
  {
    if key !in table then Failure(NoSuchStage(key))
    else
      var c := table[key];
      if c.dxid.None? then Failure(NoDxid(key))
      else if c.dxid.value == "" then Failure(EmptyDxid(key))
      else if SentinelNames(c) != {} then Failure(SentinelInputs(SentinelNames(c)))
      else
        match ResolveLinkedInputs(table, c.linkedInput)
        case Failure(errors) => Failure(BadLinks(errors))
        case Success(linked) => Success(c.input + linked)
  }
}

=== FILE: results.dfy ===
/** Failure-carrying result types used throughout the model. */
module Results {

  /** A value that may be absent, as a dictionary entry that may be missing. */
  datatype Option<+T> = None | Some(value: T)

  /** Either a computed value or the error that stopped the computation. */
  datatype Result<+T, +E> = Success(value: T) | Failure(error: E)
}

=== FILE: stages.dfy ===
/** The workflow configuration's stage table: string indices mapped to stage records. */
module Stages {
  import opened Results
  import opened Json
  import opened Numerals

  /** One stage of the configuration. `dxid` is absent until the stage is added to the remote workflow. */
  datatype StageConfig = StageConfig(
    executable: string,
    folder: string,
    input: map<string, Value>,
    linkedInput: map<string, Value>,
    dxid: Option<string>)

  /** Stages keyed by the decimal string of their index. */
  type StageTable = map<string, StageConfig>

  /** The table key of stage `i`. */
  function StageKey(i: nat): string
  {
    Decimal(i)
  }

  /** The keys of stages `0 .. n-1`. */
  function KeysBelow(n: nat): set<string>
  {
    set i | 0 <= i < n :: StageKey(i)
  }

  /** Every index below the table's size has its key in the table. */
  predicate WellIndexed(table: StageTable)
  {
    forall i :: 0 <= i < |table| ==> StageKey(i) in table
  }

  /** The keys whose stage carries a recorded `dxid`. */
  function Attached(table: StageTable): set<string>
  {
    set k | k in table && table[k].dxid.Some?
  }

  /** There are exactly `n` keys below `n`. */
  lemma {:induction false} KeysBelowSize(n: nat)
    ensures |KeysBelow(n)| == n
  {
    if n > 0 {
      KeysBelowSize(n - 1);
      KeysBelowGrow(n - 1);
    }
  }

  /** Each further index adds exactly one key. */
  lemma KeysBelowGrow(n: nat)
    ensures |KeysBelow(n + 1)| == |KeysBelow(n)| + 1
  {
    KeysBelowStep(n);
    NewKeyNotBelow(n);
    AddNewElement(KeysBelow(n), StageKey(n));
  }

  /** Adding an element that is not yet present grows a set by one. */
  lemma AddNewElement(s: set<string>, x: string)
    requires x !in s
    ensures |s + {x}| == |s| + 1
  {
  }

  /** The keys below `n + 1` are those below `n` and the key of `n`. */
  lemma KeysBelowStep(n: nat)
    ensures KeysBelow(n + 1) == KeysBelow(n) + {StageKey(n)}
  {
    forall x | x in KeysBelow(n + 1)
      ensures x in KeysBelow(n) + {StageKey(n)}
    {
      var j :| 0 <= j < n + 1 && x == StageKey(j);
      if j < n {
        assert x in KeysBelow(n);
      }
    }
  }

  /** The key of `n` is none of the keys below `n`. */
  lemma NewKeyNotBelow(n: nat)
    ensures StageKey(n) !in KeysBelow(n)
  {
    forall j | 0 <= j < n
      ensures StageKey(j) != StageKey(n)
    {
      DecimalInjective(j, n);
    }
  }

  /** A well-indexed table holds exactly the keys "0" .. "N-1" and nothing else. */
  lemma WellIndexedKeys(table: StageTable)
    requires WellIndexed(table)
    ensures table.Keys == KeysBelow(|table|)
  {
    var below := KeysBelow(|table|);
    KeysBelowSize(|table|);
    assert below <= table.Keys;
    assert |table.Keys - below| == |table.Keys| - |below|;
  }
}
